=== FILE: README.md ===
# Checkout of the Python shop (carrinho.py), modelled in Dafny

`carrinho.py` is a command-line point of sale. In a loop the operator types
a product id (0 quits), a quantity, and a payment method chosen by number
from "Dinheiro", "Cartão", "Pix". For card payments the program shows a
discount or an installment surcharge. It then asks "Confirmar compra?
(S/N)". A confirmed purchase is written in one database transaction: the
`vendas` row, the `itens_venda` row that points at it, and the stock
decrement of `produtos`. Any failure rolls all three back.

This project models that logic as pure functions over an immutable `Store`:

- `common.dfy` (`Common`): `Option`, and `FirstSome`, the reply kept by a
  prompt that repeats until a reply is acceptable.
- `payment.dfy` (`Payment`): the method menu and the card price screen
  (`cartão`).
- `confirmation.dfy` (`Confirmation`): `strip().upper()` and the S/N prompt.
- `inventory.dfy` (`Inventory`): products, sales, line items, the three
  writes, the all-or-nothing transaction, and the store invariants it keeps.
- `checkout.dfy` (`Checkout`): one pass of the `menu` loop (`Step`), the
  session (`Run`), the loop as a method (`Menu`), and session-wide lemmas.

Money is an exact `real`. Python's `Decimal` is exact in the same way only
while results fit in 28 significant digits (see "## Left out"). Each integer prompt is
an `Option<int>`, where `None` means the reply was not an integer
(`ValueError`). Database failures come in as a parameter: the write at
which the database raises, if any.

Three behaviours of the code that a reader might not expect; the model
keeps them:

- The installment branch for 4..7 is guarded only by `8 > parc`. So a
  negative count gets the 40% surcharge and a negative per-installment
  value, instead of being rejected (`Payment.NegativeCountIsSurcharged`).
- The only quantity check is "quantity above stock". A zero or negative
  quantity goes through (`Checkout.Validate` accepts exactly the requests
  that pass that check and the method check); a negative one raises the stock.
- The stored sale total is always unit price × quantity. The card discount
  or surcharge is only shown (`Checkout.StoredTotalIsUndiscounted`,
  `Checkout.ExampleCardSale`).

## Model

| member | source | states |
|---|---|---|
| Common.FirstSome | carrinho.py:76-82 | a repeated prompt keeps the first acceptable reply, every earlier reply was rejected; none is kept exactly when no reply is acceptable |
| Payment.SelectMethod | carrinho.py:144-153 | a menu choice is accepted iff it lies in 1..3, and then names the method at position choice−1 of the list; anything else is rejected |
| Payment.SelectMethodExactlyOnce | carrinho.py:8 | each method is selected by exactly one menu entry, the one holding its name |
| Payment.CardQuote | carrinho.py:83-97 | count 0: due = total × 0.8 with no installment value; 1..3: due = total × 1.2; 4..7 and negative counts: due = total × 1.4; a per-installment value is given for every non-zero count, and it times the count equals the due amount; nothing is computed exactly when the count is 8 or more |
| Payment.NegativeCountIsSurcharged | carrinho.py:91-95 | a negative count on a positive total is accepted, charged more than the total, and shown a negative installment value |
| Confirmation.Strip | carrinho.py:160 | the stripped reply is empty or begins and ends with a character that is not white space |
| Confirmation.StripRemovesOnlyEnds | carrinho.py:160 | stripping removes only white space, and only at the two ends |
| Confirmation.Upper | carrinho.py:160 | the upper-cased stripped reply is "S" exactly for s, S and U+017F, and "N" exactly for n and N |
| Confirmation.Answer | carrinho.py:160-165 | a reply confirms iff its stripped form is s, S or U+017F, declines iff it is n or N, and is asked again otherwise |
| Confirmation.Confirm | carrinho.py:160-166 | the prompt's decision is the answer of the first valid reply, all earlier replies being invalid; no decision exactly when no reply is valid |
| Inventory.Lookup | carrinho.py:121-130 | a product is found iff its id is in the catalogue, and then with its stock and price |
| Inventory.InsertSaleRow | carrinho.py:172-176 | the sale row is appended under the counter's id, which is fresh while all ids stay below the counter; the counter advances by one; nothing else changes |
| Inventory.DecrementStock | carrinho.py:185-188 | the named product's stock falls by the quantity, its price stays; other products, sales and line items are unchanged; an unknown id changes nothing |
| Inventory.InsertItemRow | carrinho.py:51-59 | a line item is accepted iff the sale and the product it references exist |
| Inventory.Transact | carrinho.py:168-197 | the transaction commits iff no step raises and the product exists; a commit adds one sale under the next id with total price × quantity, one line item referencing that id, and lowers that product's stock by the quantity, leaving other products alone; any failure leaves the store exactly as before |
| Inventory.PairedRevenue | carrinho.py:172-183 | when every sale is paired with its line item, the stored totals add up to the value of the line items |
| Inventory.CommitKeepsWellFormed | carrinho.py:172-188 | a committed sale keeps sale ids increasing and below the counter, and every line item referencing an existing sale and product |
| Inventory.CommitKeepsStockNonNegative | carrinho.py:136-138 | a commit that passed the stock check leaves no stock negative |
| Inventory.CommitKeepsPaired | carrinho.py:154 | a commit keeps each sale paired with its line item, the sale's total being the item's price × quantity |
| Inventory.CommitConservesStock | carrinho.py:178-188 | a commit moves exactly the sold quantity from stock to line items: stock plus units sold is unchanged for every product |
| Checkout.Validate | carrinho.py:116-153 | id 0 quits; a non-integer id, or a non-integer quantity for a known id, is a number error; an unknown id is rejected; a quantity above stock is rejected; a choice that is not an integer in 1..3 is rejected; each iff its condition; a request is accepted iff it passes all the checks, whatever the sign of its quantity, and then carries the typed id and quantity, the catalogue price and the chosen method |
| Checkout.Display | carrinho.py:155-158 | cash shows nothing; Pix shows the purchase total; card reaches the confirmation iff some installment reply is an integer, and then shows the card screen for the total and the first integer reply |
| Checkout.Step | carrinho.py:113-200 | a pass changes the store only when it records a sale; it records one iff it reached the confirmation, the reply is S and no write fails, and then with the transaction's effect; it declines iff it reached the confirmation and the reply is N; an early rejection ends the pass with that rejection; a declined, recorded or failed pass reports the screen the chosen method shows for the purchase total; a write failure is reported as such, and the session goes on, iff it reached the confirmation, the reply is S and a write fails, and the step it names is the one that failed; the input runs out iff the purchase was accepted and either it is a card purchase with no integer installment reply, or no confirmation reply is valid |
| Checkout.Run | carrinho.py:113-119 | the session stops at the first pass that quits or runs out of input, or when the passes run out; no earlier pass ends it (what each outcome is: `Checkout.RunPasses`) |
| Checkout.RunPasses | carrinho.py:113-200 | a session's first outcome is its first pass's; if that pass quits or runs out of input the session is that pass alone, otherwise it is that pass followed by the session over the remaining passes from the store it left |
| Checkout.RunAdvances | carrinho.py:113-200 | one turn of the loop: a session seen as the outcomes so far followed by the session from pass i on is, after pass i, the outcomes so far plus pass i's followed by the session from pass i + 1 on, or ends there when pass i ends it |
| Checkout.Menu | carrinho.py:113-200 | the loop's final store and outcomes are those of the session over the same passes |
| Checkout.StepKeepsInvariants | carrinho.py:168-190 | one pass keeps the store well formed, stock non-negative, and sales paired with line items |
| Checkout.RunKeepsInvariants | carrinho.py:113-200 | a whole session keeps the store well formed, stock non-negative, and sales paired with line items |
| Checkout.RunConservesStock | carrinho.py:136-188 | over a session the catalogue ids and prices do not change, and stock plus units sold is the same at the end as at the start |
| Checkout.RunCountsSales | carrinho.py:172-190 | over a session the number of sales, and of line items, grows by exactly the number of passes that recorded a sale |
| Checkout.ValidateIgnoresScreens | carrinho.py:116-153 | the checks before the price screen do not depend on the installment replies |
| Checkout.StoredStateIgnoresCardScreen | carrinho.py:154-158 | two passes that both reach the confirmation and differ only in the installment replies leave the same store |
| Checkout.RecordedTotal | carrinho.py:172-175 | the sale a pass records carries the total of the purchase it validated |
| Checkout.ValidatedTotal | carrinho.py:154 | a validated purchase is priced at catalogue price × typed quantity |
| Checkout.StoredTotalIsUndiscounted | carrinho.py:154-175 | the stored total is catalogue price × quantity, whatever the payment screen showed |
| Checkout.ExampleCardSale | carrinho.py:154-190 | product 5 (stock 10, price 19.90), three units by card with count 0: the screen shows 47.76 due, the sale is stored at 59.70, 7 units remain |

## Left out

- The MySQL connection, cursor, autocommit switching and the keyring
  password lookup (`get_db_config`, `testar_conexao`, `main`). These are
  foreign I/O; the database's failures enter as the `fault` parameter.
- `criar_tabela`: SQL DDL run by the database. Only the foreign keys of
  `itens_venda` are modelled, inside `Inventory.InsertItemRow`.
- `exibir_estoque`: it lives in the `estoque` module, which is not part of
  this model. It only displays stock.
- `print`, `sleep`, the banner, and the `:.2f` rounding of shown amounts.
  The model keeps the exact amounts that are shown.
- Python's `int()` parsing: an integer prompt is either a parsed integer or
  a parse failure.
- Payment.CardQuote: every amount is exact. Python's `Decimal` rounds the
  result of every operation to 28 significant digits: the total
  `preco_unitario * quantidade`, the products with 0.8, 1.2 and 1.4, and
  the installment quotient. So the program's amounts can differ from the
  model's once a result needs more digits, for example for a typed
  quantity of -10^30, or a quotient like 1.2 × total / 7. The same applies
  to Inventory.Total.
- Confirmation.Upper: only ASCII letters and U+017F are case-mapped; every
  other character is left unchanged, where Python maps é to É and ß to SS.
  No other character's upper-case form is "S" or "N", so which replies are
  accepted is still exactly Python's.
- End of input (EOF) at the installment or confirmation prompt ends the
  session (`NoAnswer`). End of input at the id, quantity or method prompt
  has no outcome of its own: it is represented only by the list of passes
  ending there, which leaves the same store. In the program `input` raises
  `EOFError` there, which passes both `except ValueError` handlers
  (carrinho.py:149, 199), and `main` ends the session.
- The sale timestamp `data_venda`, which the database sets from its clock.
- Inventory.Transact: a rollback restores the sale-id counter too. MySQL's
  AUTO_INCREMENT does not roll back, so ids after a failed sale can skip one.
- A database error outside the write block ends the program's session; the
  model has no outcome for it. Such errors can come from the lookup `SELECT`
  or from opening a cursor. A rollback that itself fails ends the session
  too, for example after a lost connection. Both raise errors that are not
  `ValueError`, so they leave `menu` and reach the handler in `main`.
- Concurrent writers between the stock check and the decrement. The program
  is used by one operator.

=== FILE: checkout.dfy ===
/** One pass of the `menu` loop of carrinho.py — product, quantity, payment
    method, price screen, confirmation, transaction — and the loop itself. */
module Checkout {
  import opened Common
  import opened Payment
  import opened Confirmation
  import opened Inventory

  /** What the operator types in one pass, plus how the database behaves.
      An integer prompt is `None` when its reply is not an integer. The
      installment and confirmation prompts repeat, so they take every reply
      given. `fault` is the write at which the database raises, if any. */
  datatype Request = Request(
    productId: Option<int>,
    quantity: Option<int>,
    choice: Option<int>,
    installments: seq<Option<int>>,
    replies: seq<string>,
    fault: Option<WriteStep>)

  /** The price screen of the chosen method; it is shown, never stored. */
  datatype Shown = ShowNothing | ShowPix(amount: real) | ShowCard(count: int, quote: Option<Quote>)

  /** How one pass ends. */
  datatype Outcome =
    | Exit                                        // product id 0
    | BadNumber                                   // id or quantity not an integer
    | InvalidId                                   // no such product
    | Unavailable                                 // quantity above stock
    | InvalidMethod                               // menu choice not an integer in 1..3
    | NoAnswer                                    // input ended inside a repeated prompt
    | Declined(shown: Shown)                      // "N"
    | Recorded(saleId: int, shown: Shown)         // committed
    | TransactionFailed(at: WriteStep, shown: Shown)  // rolled back

  /** The checks made before anything is shown: either the purchase the
      operator asked for, or the outcome that ends the pass early. */
  datatype Checked = Accepted(intent: Intent) | Rejected(outcome: Outcome)

  /** The checks of one pass in program order: quit on id 0, a number error,
      an unknown id, too little stock, a bad method choice; otherwise the
      purchase, priced from the catalogue. */
  function Validate(st: Store, req: Request): (c: Checked)
    ensures c.Rejected? ==>
      c.outcome in {Exit, BadNumber, InvalidId, Unavailable, InvalidMethod}
    ensures c == Rejected(Exit) <==> req.productId == Some(0)
    ensures c == Rejected(BadNumber) <==>
      || req.productId.None?
      || (req.productId.value != 0 && req.productId.value in st.products && req.quantity.None?)
    ensures c == Rejected(InvalidId) <==>
      req.productId.Some? && req.productId.value != 0 && req.productId.value !in st.products
    ensures c == Rejected(Unavailable) <==>
      && req.productId.Some? && req.productId.value != 0 && req.productId.value in st.products
      && req.quantity.Some? && req.quantity.value > st.products[req.productId.value].quantity
    ensures c == Rejected(InvalidMethod) <==>
      && req.productId.Some? && req.productId.value != 0 && req.productId.value in st.products
      && req.quantity.Some? && req.quantity.value <= st.products[req.productId.value].quantity
      && (req.choice.None? || !(1 <= req.choice.value <= 3))
    // every request that passes the checks goes on, whatever the sign of its quantity
    ensures c.Accepted? <==>
      && req.productId.Some? && req.productId.value != 0 && req.productId.value in st.products
      && req.quantity.Some? && req.quantity.value <= st.products[req.productId.value].quantity
      && req.choice.Some? && 1 <= req.choice.value <= 3
    ensures c.Accepted? ==>
      && req.productId == Some(c.intent.productId) && c.intent.productId != 0
      && c.intent.productId in st.products
      && req.quantity == Some(c.intent.quantity)
      && c.intent.quantity <= st.products[c.intent.productId].quantity
      && c.intent.unitPrice == st.products[c.intent.productId].price
      && req.choice.Some? && SelectMethod(req.choice.value) == Some(c.intent.payment)
  {
    match req.productId
    case None => Rejected(BadNumber)
    case Some(id) =>
      if id == 0 then Rejected(Exit)
      else
        match Lookup(st, id)
        case None => Rejected(InvalidId)
        case Some(p) =>
          match req.quantity
          case None => Rejected(BadNumber)
          case Some(q) =>
            if q > p.quantity then Rejected(Unavailable)
            else
              match req.choice
              case None => Rejected(InvalidMethod)
              case Some(choice) =>
                match SelectMethod(choice)
                case None => Rejected(InvalidMethod)
                case Some(m) => Accepted(Intent(id, q, m, p.price))
  }

  /** The price screen for `total`. Cash shows nothing, Pix shows the total,
      card asks for the installment count until an integer is typed; `None`
      means the input ended first. */
  function Display(m: Method, total: real, installments: seq<Option<int>>): (r: Option<Shown>)
    ensures m != Cartao ==> r.Some?
    ensures m == Dinheiro ==> r == Some(ShowNothing)
    ensures m == Pix ==> r == Some(ShowPix(total))
    ensures m == Cartao ==>
      (r.Some? <==> exists i :: 0 <= i < |installments| && installments[i].Some?)
    ensures m == Cartao && r.Some? ==>
      exists i :: 0 <= i < |installments| && installments[i].Some?
                  && (forall j :: 0 <= j < i ==> installments[j].None?)
                  && r.value == ShowCard(installments[i].value, CardQuote(total, installments[i].value))
  {
    match m
    case Dinheiro => Some(ShowNothing)
    case Pix => Some(ShowPix(total))
    case Cartao =>
      match FirstSome(installments)
      case None => None
      case Some(n) => Some(ShowCard(n, CardQuote(total, n)))
  }

  /** The pass got as far as the confirmation question. */
  ghost predicate Asked(st: Store, req: Request)
  {
    && Validate(st, req).Accepted?
    && var intent := Validate(st, req).intent;
       Display(intent.payment, Total(intent), req.installments).Some?
  }

  datatype StepResult = StepResult(store: Store, outcome: Outcome)

  /** One pass of the loop. */
  function Step(st: Store, req: Request): (r: StepResult)
    ensures !r.outcome.Recorded? ==> r.store == st
    ensures Validate(st, req).Rejected? ==> r.outcome == Validate(st, req).outcome
    ensures r.outcome.Declined? <==> Asked(st, req) && Confirm(req.replies) == Some(false)
    ensures r.outcome.Recorded? <==>
      Asked(st, req) && Confirm(req.replies) == Some(true) && req.fault.None?
    ensures r.outcome.Recorded? ==>
      RecordsSale(st, r.store, Validate(st, req).intent, r.outcome.saleId)
    // a failed write is reported and the loop goes on
    ensures r.outcome.TransactionFailed? <==>
      Asked(st, req) && Confirm(req.replies) == Some(true) && req.fault.Some?
    ensures r.outcome.TransactionFailed? ==> req.fault == Some(r.outcome.at)
    // the screen reported with the pass is the one the chosen method showed
    ensures (r.outcome.Declined? || r.outcome.Recorded? || r.outcome.TransactionFailed?) ==>
      r.outcome.shown == Display(Validate(st, req).intent.payment, Total(Validate(st, req).intent),
                                 req.installments).value
    ensures r.outcome.NoAnswer? <==>
      Validate(st, req).Accepted? && (!Asked(st, req) || Confirm(req.replies).None?)
  {
    match Validate(st, req)
    case Rejected(o) => StepResult(st, o)
    case Accepted(intent) =>
      match Display(intent.payment, Total(intent), req.installments)
      case None => StepResult(st, NoAnswer)
      case Some(shown) =>
        match Confirm(req.replies)
        case None => StepResult(st, NoAnswer)
        case Some(yes) =>
          if !yes then StepResult(st, Declined(shown))
          else
            var tx := Transact(st, intent, req.fault);
            match tx.outcome
            case Committed(id) => StepResult(tx.store, Recorded(id, shown))
            case RolledBack(at) => StepResult(st, TransactionFailed(at, shown))
  }

  /** The passes that end the session: product id 0, or the input running out
      inside a prompt (the end-of-input error is not caught by the loop). */
  predicate Ends(o: Outcome)
  {
    o.Exit? || o.NoAnswer?
  }

  /** No outcome but possibly the last one ends the session. */
  predicate EndsOnlyLast(outcomes: seq<Outcome>)
    decreases |outcomes|
  {
    |outcomes| <= 1 || (!Ends(outcomes[0]) && EndsOnlyLast(outcomes[1..]))
  }

  datatype Session = Session(store: Store, outcomes: seq<Outcome>)

  /** The session over the operator's successive passes: it stops at the
      first pass that ends it, or when the passes run out. */
  function Run(st: Store, reqs: seq<Request>): (r: Session)
    ensures |r.outcomes| <= |reqs|
    ensures EndsOnlyLast(r.outcomes)
    ensures |r.outcomes| == |reqs| || (|r.outcomes| > 0 && Ends(r.outcomes[|r.outcomes| - 1]))
    decreases |reqs|
  {
    if |reqs| == 0 then Session(st, [])
    else
      var s := Step(st, reqs[0]);
      if Ends(s.outcome) then Session(s.store, [s.outcome])
      else
        var rest := Run(s.store, reqs[1..]);
        var outcomes := [s.outcome] + rest.outcomes;
        assert outcomes[1..] == rest.outcomes;
        Session(rest.store, outcomes)
  }

  /** `Run` unfolded one pass: a session is its first pass followed by the
      session over the rest, unless the first pass ends it. Used by
      `RunAdvances`; the independent account of the loop is `Menu`. */
  lemma RunPasses(st: Store, reqs: seq<Request>)
    requires |reqs| > 0
    ensures Run(st, reqs).outcomes[0] == Step(st, reqs[0]).outcome
    ensures Ends(Step(st, reqs[0]).outcome) ==>
      Run(st, reqs) == Session(Step(st, reqs[0]).store, [Step(st, reqs[0]).outcome])
    ensures !Ends(Step(st, reqs[0]).outcome) ==>
      var rest := Run(Step(st, reqs[0]).store, reqs[1..]);
      Run(st, reqs) == Session(rest.store, [Step(st, reqs[0]).outcome] + rest.outcomes)
  {
  }

  /** One turn of the loop: if the session from pass `i` on, after the
      outcomes `done`, is the whole session, then so is the session from pass
      `i + 1` on after one more outcome, unless pass `i` ends it. */
  lemma RunAdvances(st: Store, reqs: seq<Request>, i: nat, cur: Store, done: seq<Outcome>)
    requires i < |reqs|
    requires Run(st, reqs) == Session(Run(cur, reqs[i..]).store, done + Run(cur, reqs[i..]).outcomes)
    ensures Ends(Step(cur, reqs[i]).outcome) ==>
      Run(st, reqs) == Session(Step(cur, reqs[i]).store, done + [Step(cur, reqs[i]).outcome])
    ensures !Ends(Step(cur, reqs[i]).outcome) ==>
      var rest := Run(Step(cur, reqs[i]).store, reqs[i + 1..]);
      Run(st, reqs) == Session(rest.store, (done + [Step(cur, reqs[i]).outcome]) + rest.outcomes)
  {
    assert reqs[i..][0] == reqs[i] && reqs[i..][1..] == reqs[i + 1..];
    RunPasses(cur, reqs[i..]);
    var s := Step(cur, reqs[i]);
    if !Ends(s.outcome) {
      var rest := Run(s.store, reqs[i + 1..]);
      Associate(done, s.outcome, rest.outcomes);
    }
  }

  /** Appending one outcome and then the rest is appending both at once. */
  lemma Associate(done: seq<Outcome>, o: Outcome, rest: seq<Outcome>)
    ensures done + ([o] + rest) == (done + [o]) + rest
  {
  }

  /** The `menu` loop, pass by pass, as the program runs it. It is proved
      equal to `Run`, so the `Run*` lemmas below hold of the loop too. */
  method Menu(st: Store, reqs: seq<Request>) returns (final: Store, outcomes: seq<Outcome>)
    ensures Session(final, outcomes) == Run(st, reqs)
  {
    final := st;
    outcomes := [];
    var i := 0;
    while i < |reqs|
      invariant 0 <= i <= |reqs|
      invariant Run(st, reqs) == Session(Run(final, reqs[i..]).store, outcomes + Run(final, reqs[i..]).outcomes)
      decreases |reqs| - i
    {
      RunAdvances(st, reqs, i, final, outcomes);
      var s := Step(final, reqs[i]);
      outcomes := outcomes + [s.outcome];
      final := s.store;
      if Ends(s.outcome) {
        return;
      }
      i := i + 1;
    }
  }

  /** Number of passes that recorded a sale. */
  function RecordedCount(outcomes: seq<Outcome>): nat
  {
    if |outcomes| == 0 then 0
    else (if outcomes[0].Recorded? then 1 else 0) + RecordedCount(outcomes[1..])
  }

  lemma StepKeepsInvariants(st: Store, req: Request)
    requires WellFormed(st)
    ensures WellFormed(Step(st, req).store)
    ensures StockNonNegative(st) ==> StockNonNegative(Step(st, req).store)
    ensures Paired(st) ==> Paired(Step(st, req).store)
  {
    var r := Step(st, req);
    if r.outcome.Recorded? {
      var intent := Validate(st, req).intent;
      CommitKeepsWellFormed(st, r.store, intent, r.outcome.saleId);
      if StockNonNegative(st) {
        CommitKeepsStockNonNegative(st, r.store, intent, r.outcome.saleId);
      }
      if Paired(st) {
        CommitKeepsPaired(st, r.store, intent, r.outcome.saleId);
      }
    }
  }

  /** Over a whole session the tables stay well formed, no stock goes
      negative, and a ledger that starts paired stays paired. */
  lemma {:induction false} RunKeepsInvariants(st: Store, reqs: seq<Request>)
    requires WellFormed(st)
    ensures WellFormed(Run(st, reqs).store)
    ensures StockNonNegative(st) ==> StockNonNegative(Run(st, reqs).store)
    ensures Paired(st) ==> Paired(Run(st, reqs).store)
    decreases |reqs|
  {
    if |reqs| > 0 {
      var s := Step(st, reqs[0]);
      StepKeepsInvariants(st, reqs[0]);
      if !Ends(s.outcome) {
        RunKeepsInvariants(s.store, reqs[1..]);
      }
    }
  }

  /** Over a whole session every unit that leaves stock is recorded as sold:
      stock plus units sold is the same at the end as at the start, and the
      catalogue itself (ids and prices) is unchanged. */
  lemma {:induction false} RunConservesStock(st: Store, reqs: seq<Request>, id: int)
    requires id in st.products
    ensures Run(st, reqs).store.products.Keys == st.products.Keys
    ensures Run(st, reqs).store.products[id].price == st.products[id].price
    ensures Run(st, reqs).store.products[id].quantity + Sold(Run(st, reqs).store.items, id)
            == st.products[id].quantity + Sold(st.items, id)
    decreases |reqs|
  {
    if |reqs| > 0 {
      var s := Step(st, reqs[0]);
      if s.outcome.Recorded? {
        CommitConservesStock(st, s.store, Validate(st, reqs[0]).intent, s.outcome.saleId, id);
      }
      if !Ends(s.outcome) {
        RunConservesStock(s.store, reqs[1..], id);
      }
    }
  }

  /** Every recorded pass adds exactly one sale and one line item, and no
      other pass adds any. */
  lemma {:induction false} RunCountsSales(st: Store, reqs: seq<Request>)
    ensures |Run(st, reqs).store.sales| == |st.sales| + RecordedCount(Run(st, reqs).outcomes)
    ensures |Run(st, reqs).store.items| == |st.items| + RecordedCount(Run(st, reqs).outcomes)
    decreases |reqs|
  {
    if |reqs| > 0 {
      var s := Step(st, reqs[0]);
      if !Ends(s.outcome) {
        RunCountsSales(s.store, reqs[1..]);
        var rest := Run(s.store, reqs[1..]).outcomes;
        assert ([s.outcome] + rest)[1..] == rest;
      }
    }
  }

  lemma ValidateIgnoresScreens(st: Store, req: Request, installments: seq<Option<int>>)
    ensures Validate(st, req.(installments := installments)) == Validate(st, req)
  {
    var req2 := req.(installments := installments);
    assert req2.productId == req.productId && req2.quantity == req.quantity && req2.choice == req.choice;
  }

  /** What is stored does not depend on the card screen: two passes that
      both reach the confirmation and differ only in the installment replies
      leave the same store. */
  lemma StoredStateIgnoresCardScreen(st: Store, req: Request, installments: seq<Option<int>>)
    requires Asked(st, req) && Asked(st, req.(installments := installments))
    ensures Step(st, req).store == Step(st, req.(installments := installments)).store
  {
    var req2 := req.(installments := installments);
    ValidateIgnoresScreens(st, req, installments);
    var intent := Validate(st, req).intent;
    assert req2.replies == req.replies && req2.fault == req.fault;
    var d1 := Display(intent.payment, Total(intent), req.installments);
    var d2 := Display(intent.payment, Total(intent), req2.installments);
    assert d1.Some? && d2.Some?;
  }

  /** The total of the sale a pass records is the total of the purchase it
      validated. */
  lemma RecordedTotal(st: Store, req: Request)
    requires Step(st, req).outcome.Recorded?
    ensures Validate(st, req).Accepted?
    ensures Step(st, req).store.sales[|st.sales|].total == Total(Validate(st, req).intent)
  {
    var r := Step(st, req);
    assert RecordsSale(st, r.store, Validate(st, req).intent, r.outcome.saleId);
  }

  /** A validated purchase is priced at the catalogue price times the quantity typed. */
  lemma ValidatedTotal(st: Store, req: Request, id: int, q: int)
    requires Validate(st, req).Accepted? && req.productId == Some(id) && req.quantity == Some(q)
    ensures id in st.products
    ensures Total(Validate(st, req).intent) == st.products[id].price * (q as real)
  {
    var intent := Validate(st, req).intent;
    assert intent.productId == id && intent.quantity == q && intent.unitPrice == st.products[id].price;
  }

  /** The stored total is the undiscounted unit price times quantity,
      whatever the payment screen showed. */
  lemma StoredTotalIsUndiscounted(st: Store, req: Request, id: int, q: int)
    requires req.productId == Some(id) && req.quantity == Some(q)
    requires Step(st, req).outcome.Recorded?
    ensures id in st.products
    ensures Step(st, req).store.sales[|st.sales|].total == st.products[id].price * (q as real)
  {
    RecordedTotal(st, req);
    ValidatedTotal(st, req, id, q);
  }

  lemma ExampleStrip()
    ensures Strip(" s ") == "s" && Strip("x") == "x"
  {
    assert IsSpace(' ') && !IsSpace('s') && !IsSpace('x');
    assert SkipSpace(" s ", 0) == SkipSpace(" s ", 1) == 1;
    assert SkipSpaceBack(" s ", 1, 3) == SkipSpaceBack(" s ", 1, 2) == 2;
    assert SkipSpace("x", 0) == 0 && SkipSpaceBack("x", 0, 1) == 1;
  }

  /** The replies "x" (asked again) then " s " (confirmed). */
  lemma ExampleReplies()
    ensures Confirm(["x", " s "]) == Some(true)
  {
    ExampleStrip();
    assert Answers(["x", " s "]) == [None, Some(true)];
  }

  /** Product 5, 10 in stock at 19.90; three units by card, installment
      count first mistyped and then 0, confirmed on the second reply. */
  const ExampleStore := Store(map[5 := Product(10, 19.90)], [], [], 1)
  const ExampleRequest := Request(Some(5), Some(3), Some(2), [None, Some(0)], ["x", " s "], None)
  const ExampleIntent := Intent(5, 3, Cartao, 19.90)

  lemma ExampleChecks()
    ensures Validate(ExampleStore, ExampleRequest) == Accepted(ExampleIntent)
    ensures Total(ExampleIntent) == 59.70
    ensures Display(Cartao, 59.70, ExampleRequest.installments)
            == Some(ShowCard(0, Some(Quote(47.76, None))))
  {
    assert FirstSome(ExampleRequest.installments) == Some(0);
  }

  const ExampleAfter := Store(map[5 := Product(7, 19.90)], [Sale(1, Cartao, 59.70)],
                              [LineItem(1, 5, 3, 19.90)], 2)

  lemma ExampleCommit()
    ensures Transact(ExampleStore, ExampleIntent, None) == Tx(ExampleAfter, Committed(1))
  {
    assert Total(ExampleIntent) == 59.70;
    var tx := Transact(ExampleStore, ExampleIntent, None);
    assert RecordsSale(ExampleStore, tx.store, ExampleIntent, 1);
    assert tx.store.products == ExampleAfter.products;
  }

  /** The card screen shows 47.76 due, yet the sale is recorded at the full
      59.70 and 7 units are left. */
  lemma ExampleCardSale()
    ensures Step(ExampleStore, ExampleRequest)
            == StepResult(ExampleAfter, Recorded(1, ShowCard(0, Some(Quote(47.76, None)))))
  {
    ExampleReplies();
    ExampleChecks();
    ExampleCommit();
  }
}

=== FILE: common.dfy ===
/** Shared vocabulary: an optional value, and the reply a re-prompting loop keeps. */
module Common {

  /** A value that may be absent: a failed lookup, an input that did not parse. */
  datatype Option<+T> = None | Some(value: T)

  /** The first present element of `xs`. A prompt that is repeated until the
      reply is acceptable keeps the first acceptable reply and ignores every
      reply before it; `None` means the replies ran out first. */
  function FirstSome<T>(xs: seq<Option<T>>): (r: Option<T>)
    ensures r.None? <==> forall i :: 0 <= i < |xs| ==> xs[i].None?
    ensures r.Some? ==>
      exists i :: 0 <= i < |xs| && xs[i] == r && forall j :: 0 <= j < i ==> xs[j].None?
    decreases |xs|
  {
    if |xs| == 0 then None
    else if xs[0].Some? then xs[0]
    else
      var r := FirstSome(xs[1..]);
      assert r.Some? ==> exists i :: 0 <= i < |xs[1..]| && xs[1..][i] == r
                          && forall j :: 0 <= j < i ==> xs[1..][j].None?;
      assert forall i :: 0 <= i < |xs[1..]| ==> xs[1..][i] == xs[i + 1];
      r
  }
}

=== FILE: confirmation.dfy ===
/** The "Confirmar compra? (S/N)" prompt: the reply is stripped of white space,
    upper-cased and accepted only when it is "S" or "N"; otherwise it is asked
    again. */
module Confirmation {
  import opened Common

  /** The characters Python's `str.isspace()` accepts, which `str.strip()`
      removes from both ends. */
  predicate IsSpace(c: char)
  {
    || ('\t' <= c <= '\r')
    || ('\U{1C}' <= c <= '\U{1F}')
    || c == ' ' || c == '\U{85}' || c == '\U{A0}' || c == '\U{1680}'
    || ('\U{2000}' <= c <= '\U{200A}')
    || c == '\U{2028}' || c == '\U{2029}' || c == '\U{202F}' || c == '\U{205F}'
    || c == '\U{3000}'
  }

  /** The first index at or after `i` that does not hold white space. */
  function SkipSpace(s: string, i: nat): (k: nat)
    requires i <= |s|
    ensures i <= k <= |s|
    ensures forall j :: i <= j < k ==> IsSpace(s[j])
    ensures k == |s| || !IsSpace(s[k])
    decreases |s| - i
  {
    if i < |s| && IsSpace(s[i]) then SkipSpace(s, i + 1) else i
  }

  /** The end of `s[lo..hi]` once its trailing white space is dropped. */
  function SkipSpaceBack(s: string, lo: nat, hi: nat): (k: nat)
    requires lo <= hi <= |s|
    ensures lo <= k <= hi
    ensures forall j :: k <= j < hi ==> IsSpace(s[j])
    ensures k == lo || !IsSpace(s[k - 1])
    decreases hi
  {
    if lo < hi && IsSpace(s[hi - 1]) then SkipSpaceBack(s, lo, hi - 1) else hi
  }

  /** Python's `str.strip()` with no argument: leading white space is dropped,
      then trailing white space. */
  function Strip(s: string): (t: string)
    ensures t == [] || (!IsSpace(t[0]) && !IsSpace(t[|t| - 1]))
  {
    var a := SkipSpace(s, 0);
    var b := SkipSpaceBack(s, a, |s|);
    assert a < b ==> s[a..b][0] == s[a] && s[a..b][b - a - 1] == s[b - 1];
    s[a..b]
  }

  /** What `Strip` removes is white space at the two ends and nothing else:
      the result is the infix of `s` between an all-white-space prefix and an
      all-white-space suffix. */
  lemma StripRemovesOnlyEnds(s: string)
    ensures var a := SkipSpace(s, 0);
      && a + |Strip(s)| <= |s| && Strip(s) == s[a..a + |Strip(s)|]
      && (forall j :: 0 <= j < a ==> IsSpace(s[j]))
      && (forall j :: a + |Strip(s)| <= j < |s| ==> IsSpace(s[j]))
  {
  }

  /** Upper-casing of one character, as far as it can produce "S" or "N":
      ASCII letters, and U+017F (long s), whose upper case is 'S'. */
  function UpperChar(c: char): char
  {
    if 'a' <= c <= 'z' then (c as int - 32) as char
    else if c == '\U{17F}' then 'S'
    else c
  }

  /** `str.upper()` as far as the confirmation prompt can tell: the result
      is "S" exactly for s, S and U+017F, and "N" exactly for n and N. */
  function Upper(s: string): (u: string)
    ensures |u| == |s|
    ensures u == "S" <==> s in {"s", "S", "\U{17F}"}
    ensures u == "N" <==> s in {"n", "N"}
  {
    var u := seq(|s|, i requires 0 <= i < |s| => UpperChar(s[i]));
    assert |s| == 1 ==> s == [s[0]] && u == [UpperChar(s[0])];
    u
  }

  /** One reply: `Some(true)` confirms ("S"), `Some(false)` declines ("N"),
      `None` is "invalid option" and the question is asked again. */
  function Answer(s: string): (r: Option<bool>)
    ensures r == Some(true) <==> Strip(s) in {"s", "S", "\U{17F}"}
    ensures r == Some(false) <==> Strip(s) in {"n", "N"}
  {
    var u := Upper(Strip(s));
    if u == "S" then Some(true)
    else if u == "N" then Some(false)
    else None
  }

  /** The answer each reply gives, in order. */
  function Answers(replies: seq<string>): (a: seq<Option<bool>>)
    ensures |a| == |replies|
    ensures forall i :: 0 <= i < |replies| ==> a[i] == Answer(replies[i])
  {
    seq(|replies|, i requires 0 <= i < |replies| => Answer(replies[i]))
  }

  /** The decision the repeated prompt reaches on the operator's successive
      replies: the first valid reply decides, every earlier one was invalid.
      `None` means the replies ran out with no valid one. */
  function Confirm(replies: seq<string>): (r: Option<bool>)
    ensures r.None? <==> forall i :: 0 <= i < |replies| ==> Answer(replies[i]).None?
    ensures r.Some? ==>
      exists i :: 0 <= i < |replies| && Answer(replies[i]) == r
                  && forall j :: 0 <= j < i ==> Answer(replies[j]).None?
  {
    var answers := Answers(replies);
    var r := FirstSome(answers);
    assert r.Some? ==> exists i :: 0 <= i < |answers| && answers[i] == r
                        && forall j :: 0 <= j < i ==> answers[j].None?;
    r
  }
}

=== FILE: inventory.dfy ===
/** The tables a sale touches — `produtos`, `vendas`, `itens_venda` — as one
    immutable value, and the three-write transaction that records a sale. */
module Inventory {
  import opened Common
  import opened Payment

  /** A row of `produtos` as the checkout reads it. */
  datatype Product = Product(quantity: int, price: real)

  /** A row of `vendas`; the insertion timestamp is not modelled. */
  datatype Sale = Sale(id: int, payment: Method, total: real)

  /** A row of `itens_venda`: which sale, which product, how many, at what price. */
  datatype LineItem = LineItem(saleId: int, productId: int, quantity: int, unitPrice: real)

  /** The database as the checkout sees it. `nextId` is the id the next
      inserted sale receives (the AUTO_INCREMENT counter of `vendas`). */
  datatype Store = Store(products: map<int, Product>, sales: seq<Sale>,
                         items: seq<LineItem>, nextId: int)

  /** `SELECT id, quantidade, preco FROM produtos WHERE id = ...`: no row for
      an unknown id. */
  function Lookup(st: Store, id: int): (r: Option<Product>)
    ensures r.Some? <==> id in st.products
    ensures r.Some? ==> r.value == st.products[id]
  {
    if id in st.products then Some(st.products[id]) else None
  }

  function SaleIds(sales: seq<Sale>): set<int>
  {
    set i | 0 <= i < |sales| :: sales[i].id
  }

  /** A purchase the operator confirmed: everything the writes record. */
  datatype Intent = Intent(productId: int, quantity: int, payment: Method, unitPrice: real)

  /** The total stored with the sale: unit price times quantity, whatever the
      payment method showed. */
  function Total(intent: Intent): real
  {
    intent.unitPrice * (intent.quantity as real)
  }

  /** The writes of the sale transaction, then the commit, in program order. */
  datatype WriteStep = InsertSale | InsertItem | UpdateStock | CommitWork

  /** The sale row; it receives the next id. Nothing else changes. */
  function InsertSaleRow(st: Store, payment: Method, total: real): (r: Store)
    ensures |r.sales| == |st.sales| + 1 && r.sales[..|st.sales|] == st.sales
    ensures r.sales[|st.sales|] == Sale(st.nextId, payment, total)
    ensures r.nextId == st.nextId + 1
    ensures r.products == st.products && r.items == st.items
    // while every id stays below the counter, the new id is fresh
    ensures (forall i :: 0 <= i < |st.sales| ==> st.sales[i].id < st.nextId) ==>
      st.nextId !in SaleIds(st.sales)
  {
    st.(sales := st.sales + [Sale(st.nextId, payment, total)], nextId := st.nextId + 1)
  }

  /** The line-item row; the foreign keys of `itens_venda` reject a row whose
      sale or product does not exist. */
  function InsertItemRow(st: Store, item: LineItem): (r: Option<Store>)
    ensures r.Some? <==> item.saleId in SaleIds(st.sales) && item.productId in st.products
  {
    if item.saleId in SaleIds(st.sales) && item.productId in st.products then
      Some(st.(items := st.items + [item]))
    else
      None
  }

  /** `UPDATE produtos SET quantidade = quantidade - q WHERE id = ...`; an
      unknown id matches no row and changes nothing. */
  function DecrementStock(st: Store, productId: int, quantity: int): (r: Store)
    ensures r.products.Keys == st.products.Keys
    ensures r.sales == st.sales && r.items == st.items && r.nextId == st.nextId
    ensures productId in st.products ==>
      && r.products[productId].quantity == st.products[productId].quantity - quantity
      && r.products[productId].price == st.products[productId].price
    ensures forall id :: id in st.products && id != productId ==> r.products[id] == st.products[id]
  {
    if productId in st.products then
      var p := st.products[productId];
      st.(products := st.products[productId := Product(p.quantity - quantity, p.price)])
    else
      st
  }

  /** How the transaction ended: committed under the new sale's id, or rolled
      back after the named step raised. */
  datatype TxOutcome = Committed(saleId: int) | RolledBack(at: WriteStep)

  datatype Tx = Tx(store: Store, outcome: TxOutcome)

  /** The effect of recording `intent` as sale `saleId`: one more sale with the
      undiscounted total, one more line item pointing at it, the product's
      stock lowered by the quantity, every other product untouched. */
  ghost predicate RecordsSale(st: Store, st': Store, intent: Intent, saleId: int)
  {
    && intent.productId in st.products
    && saleId == st.nextId
    && st'.nextId == st.nextId + 1
    && st'.sales == st.sales + [Sale(saleId, intent.payment, Total(intent))]
    && st'.items == st.items + [LineItem(saleId, intent.productId, intent.quantity, intent.unitPrice)]
    && st'.products.Keys == st.products.Keys
    && st'.products[intent.productId].quantity == st.products[intent.productId].quantity - intent.quantity
    && st'.products[intent.productId].price == st.products[intent.productId].price
    && forall id :: id in st.products && id != intent.productId ==> st'.products[id] == st.products[id]
  }

  /** The sale transaction. `fault` is the step at which the database raises,
      if any (a violated constraint, a value out of range);
      a raise at any step, or a foreign-key rejection, rolls back to `st`. */
  function Transact(st: Store, intent: Intent, fault: Option<WriteStep>): (r: Tx)
    ensures r.outcome.RolledBack? ==> r.store == st
    ensures r.outcome.Committed? <==> fault.None? && intent.productId in st.products
    ensures r.outcome.Committed? ==> RecordsSale(st, r.store, intent, r.outcome.saleId)
    ensures r.outcome.RolledBack? && intent.productId in st.products ==> fault == Some(r.outcome.at)
  {
    var saleId := st.nextId;
    var w1 := InsertSaleRow(st, intent.payment, Total(intent));
    assert w1.sales[|st.sales|].id == saleId;
    var w2 := InsertItemRow(w1, LineItem(saleId, intent.productId, intent.quantity, intent.unitPrice));
    if fault == Some(InsertSale) then Tx(st, RolledBack(InsertSale))
    else if w2.None? || fault == Some(InsertItem) then Tx(st, RolledBack(InsertItem))
    // the stock update or the commit raised: everything written so far is discarded
    else if fault.Some? then Tx(st, RolledBack(fault.value))
    else Tx(DecrementStock(w2.value, intent.productId, intent.quantity), Committed(saleId))
  }

  /** Referential integrity the schema demands, plus the id discipline of
      AUTO_INCREMENT: ids increase in insertion order and stay below the
      counter; every line item points at an existing sale and product. */
  ghost predicate WellFormed(st: Store)
  {
    && (forall i :: 0 <= i < |st.sales| ==> st.sales[i].id < st.nextId)
    && (forall i, j :: 0 <= i < j < |st.sales| ==> st.sales[i].id < st.sales[j].id)
    && (forall k :: 0 <= k < |st.items| ==>
          st.items[k].saleId in SaleIds(st.sales) && st.items[k].productId in st.products)
  }

  predicate StockNonNegative(st: Store)
  {
    forall id :: id in st.products ==> st.products[id].quantity >= 0
  }

  /** The ledger as this checkout writes it: sale i and line item i belong
      together, and the sale's total is the item's price times quantity. */
  ghost predicate Paired(st: Store)
  {
    && |st.sales| == |st.items|
    && forall i :: 0 <= i < |st.sales| ==>
         && st.items[i].saleId == st.sales[i].id
         && st.sales[i].total == st.items[i].unitPrice * (st.items[i].quantity as real)
  }

  /** Units of product `id` recorded as sold. */
  function Sold(items: seq<LineItem>, id: int): int
  {
    if |items| == 0 then 0
    else Sold(items[..|items| - 1], id)
         + (if items[|items| - 1].productId == id then items[|items| - 1].quantity else 0)
  }

  /** Sum of the sales' stored totals. */
  function Revenue(sales: seq<Sale>): real
  {
    if |sales| == 0 then 0.0 else Revenue(sales[..|sales| - 1]) + sales[|sales| - 1].total
  }

  /** Sum of price times quantity over the line items. */
  function ItemsValue(items: seq<LineItem>): real
  {
    if |items| == 0 then 0.0
    else ItemsValue(items[..|items| - 1])
         + items[|items| - 1].unitPrice * (items[|items| - 1].quantity as real)
  }

  /** In a paired ledger the stored totals add up to the value of the items. */
  lemma {:induction false} PairedRevenue(st: Store)
    requires Paired(st)
    ensures Revenue(st.sales) == ItemsValue(st.items)
    decreases |st.sales|
  {
    if |st.sales| > 0 {
      var n := |st.sales|;
      var prefix := st.(sales := st.sales[..n - 1], items := st.items[..n - 1]);
      assert Paired(prefix);
      PairedRevenue(prefix);
    }
  }

  /** A committed sale keeps the store well formed. */
  lemma CommitKeepsWellFormed(st: Store, st': Store, intent: Intent, saleId: int)
    requires WellFormed(st) && RecordsSale(st, st', intent, saleId)
    ensures WellFormed(st')
  {
    var n := |st.sales|;
    assert st'.sales[n].id == saleId;
    assert saleId in SaleIds(st'.sales);
    assert SaleIds(st.sales) <= SaleIds(st'.sales) by {
      forall x | x in SaleIds(st.sales) ensures x in SaleIds(st'.sales) {
        var i :| 0 <= i < n && st.sales[i].id == x;
        assert st'.sales[i] == st.sales[i];
      }
    }
  }

  /** A committed sale that passed the stock check leaves no stock negative. */
  lemma CommitKeepsStockNonNegative(st: Store, st': Store, intent: Intent, saleId: int)
    requires StockNonNegative(st) && RecordsSale(st, st', intent, saleId)
    requires intent.quantity <= st.products[intent.productId].quantity
    ensures StockNonNegative(st')
  {
  }

  /** A committed sale of a product at its catalogue price keeps the ledger paired. */
  lemma CommitKeepsPaired(st: Store, st': Store, intent: Intent, saleId: int)
    requires Paired(st) && RecordsSale(st, st', intent, saleId)
    ensures Paired(st')
  {
  }

  /** A committed sale moves exactly the sold quantity from stock to the
      line items: stock plus units sold is unchanged for every product. */
  lemma CommitConservesStock(st: Store, st': Store, intent: Intent, saleId: int, id: int)
    requires RecordsSale(st, st', intent, saleId) && id in st.products
    ensures id in st'.products
    ensures st'.products[id].quantity + Sold(st'.items, id) == st.products[id].quantity + Sold(st.items, id)
  {
    assert st'.items[..|st'.items| - 1] == st.items;
  }
}

=== FILE: payment.dfy ===
/** Payment methods and the card-installment price screen of carrinho.py. */
module Payment {
  import opened Common

  /** The payment methods offered at checkout. */
  datatype Method = Dinheiro | Cartao | Pix

  /** The menu, in the order it is shown; these names are also what a sale
      stores in `vendas.metodo_pagamento`. */
  const MethodNames: seq<string> := ["Dinheiro", "Cartão", "Pix"]

  /** The name a method is shown and stored under. */
  function Name(m: Method): string
  {
    match m
    case Dinheiro => MethodNames[0]
    case Cartao => MethodNames[1]
    case Pix => MethodNames[2]
  }

  /** The operator's 1-based menu choice. Only 1..3 is accepted; anything else
      is the "invalid option" error and no sale proceeds. */
  function SelectMethod(choice: int): (r: Option<Method>)
    ensures r.Some? <==> 1 <= choice <= |MethodNames|
    ensures r.Some? ==> Name(r.value) == MethodNames[choice - 1]
  {
    if choice < 1 || choice > |MethodNames| then None
    else if choice == 1 then Some(Dinheiro)
    else if choice == 2 then Some(Cartao)
    else Some(Pix)
  }

  /** Each method is offered by exactly one menu entry. */
  lemma SelectMethodExactlyOnce(m: Method, choice: int)
    ensures SelectMethod(choice) == Some(m) <==> 1 <= choice <= 3 && MethodNames[choice - 1] == Name(m)
  {
  }

  /** What the card screen shows: the amount due and, when the purchase is
      split, the value of each installment. */
  datatype Quote = Quote(due: real, perInstallment: Option<real>)

  /** The card screen for a purchase of `total` split into `parc` installments.
      `None` is the "invalid value" message: nothing is computed. */
  function CardQuote(total: real, parc: int): (q: Option<Quote>)
    ensures q.Some? <==> parc < 8
    ensures parc == 0 ==> q == Some(Quote(total * 0.8, None))
    ensures 1 <= parc <= 3 ==> q.Some? && q.value.due == total * 1.2
    ensures (4 <= parc <= 7 || parc < 0) ==> q.Some? && q.value.due == total * 1.4
    ensures q.Some? && parc != 0 ==>
      q.value.perInstallment.Some? && q.value.perInstallment.value * (parc as real) == q.value.due
  {
    if parc == 0 then
      Some(Quote(total * 0.8, None))
    else if 4 > parc && parc > 0 then
      var juros := total * 1.2;
      Some(Quote(juros, Some(juros / (parc as real))))
    else if 8 > parc then
      var juros := total * 1.4;
      Some(Quote(juros, Some(juros / (parc as real))))
    else
      None
  }

  /** A negative installment count is not rejected: it is charged the 40%
      surcharge and shown a negative installment value. */
  lemma NegativeCountIsSurcharged(total: real, parc: int)
    requires total > 0.0 && parc < 0
    ensures CardQuote(total, parc).Some?
    ensures CardQuote(total, parc).value.due == total * 1.4 > total
    ensures CardQuote(total, parc).value.perInstallment.value < 0.0
  {
    var q := CardQuote(total, parc).value;
    var per := q.perInstallment.value;
    assert per * (parc as real) == q.due;
  }
}
